=== FILE: README.md ===
# Upload to Google Drive: a Dafny model

This project models the core of a GitHub Action that uploads files to a
Google Drive folder (`main.go`). The action expands a filename pattern and
checks its inputs. For every matched path it then does four things:

1. When directory mirroring is on, it asks for a folder named after the
   path's directory, escaped.
2. It decides the name the upload gets.
3. It looks that name up in the target folder.
4. It either updates the item it found or creates a new one, and reports a
   `https://drive.google.com/file/d/<id>/view` link.

The remote Drive is a `Drive.Store`: a sequence of items in listing order,
each with an id, name, MIME type, parents, trash flag and content. The local
disk is a map from path to entry (a directory or a regular file with its
bytes). Every step is a pure function from a store to a new store. The run
is a fold over the matched paths that stops at the first fatal error and
keeps whatever the store held at that point.

Modules:

- `Wrappers`: `Option` and `Result`.
- `Paths`: `Base`, `Dir` and the space escape.
- `Drive`: the store, `findFileByName`, `createDriveDirectory` and
  `uploadToDrive`.
- `Action`: the inputs, name resolution, the mirror step, the per-file step,
  the loop and the whole run.

How the code behaves, which the model follows:

- With `useCompleteSourceFilenameAsName`, the upload name is the raw path.
  Its spaces are not escaped (main.go:168-169).
- Mirroring does not walk the directory one segment at a time. The whole
  escaped directory string, such as `a/b\ c`, is passed once to
  `createDriveDirectory` as a single folder name under the target folder.
  The returned id is thrown away, so the file itself is still uploaded into
  the target folder (main.go:156-159, 182, 188).
- A matched directory is skipped only inside `uploadToDrive`
  (main.go:48-50). Before that, the mirror step may already have created a
  folder for the directory that holds it.
- The existence check behind `createDriveDirectory` does not filter on the
  folder MIME type. Any non-trashed item with the folder's name in the
  target folder is reused (main.go:199-205, 222). The file's own existence
  check (main.go:182) does not filter out folders either: with mirroring on,
  a path `x/x` finds the folder `x` the mirror step just made and updates
  it with the file's content. `Action.MirrorMakesOneFolderForWholeDirectory`
  leaves out exactly that case (`base != EscapeSpaces(dir)`).
- The `overwrite` input is parsed and then never used. An existing item
  with the same name is always updated (main.go:97-104, 182-188).
- An update sends only a name and a MIME type. As in the Drive client, an
  empty field is not sent. The model keeps the old value of an empty field
  (see `Drive.Overwritten` under "Left out" for the MIME type). `AddParents` adds the
  target folder to the item's parents unless it is already there
  (main.go:58-63).

Go's `filepath.Base` and `filepath.Dir` are modelled for clean paths, which
is what `filepath.Glob` returns for a clean pattern: no trailing or repeated
`/` and no `.` or `..` segments. A new item's id is one the store does not
hold yet (`Drive.FreshId`). The service's real id scheme is not modelled.

## Model

| member | source | states |
|---|---|---|
| Paths.LastSlash | main.go:157 | the index returned holds a `/` with none after it; none exactly when the path has no `/` |
| Paths.Dir | main.go:157 | a path without `/` has directory `.`; otherwise the directory is the root or the part of the path before its last `/` |
| Paths.Base | main.go:171 | the base name holds no `/`; a path without `/` is its own base name; a path with a `/` ends in that `/` followed by its base name, so `/x` has base name `x` |
| Paths.DirBaseSplit | main.go:157-171 | a relative path with a `/` is exactly its directory, `/` and base name |
| Paths.EscapeSpaces | main.go:153 | each space gains one character; every space in the result follows a backslash; other characters are unchanged; a path without spaces is unchanged |
| Paths.UnescapeEscape | main.go:153 | escaping is injective: the raw path can be recovered from the escaped one |
| Paths.EscapeAppend | main.go:153 | escaping distributes over concatenation |
| Paths.EscapeJoin | main.go:153 | escaping keeps a separating `/` in place |
| Paths.LastSlashOfJoin | main.go:157 | the last `/` of `x/y` is the separator when `y` holds none |
| Paths.DirOfJoin | main.go:157 | the directory of `a/b` is `a`, or the root when `a` is empty |
| Paths.JoinParts | main.go:157-171 | `dir/base` splits back into `dir` as its directory and `base` as its base name |
| Paths.DirOfEscaped | main.go:153-157 | the directory of the escaped path is the escaped directory of the raw path |
| Paths.EscapedDirIsDotIff | main.go:156-158 | the mirror gate on the escaped path agrees with the gate on the raw path, both ways |
| Drive.FirstMatch | main.go:221-231 | returns the first index whose item has the name, lists the parent and is not trashed; none when no item matches |
| Drive.FindFileByName | main.go:221-231 | none exactly when no non-trashed item with that name is in the folder; otherwise the first such item in listing order |
| Drive.FirstMatchIsUnique | main.go:227-228 | the first match is unique, so the lookup is a function of the store |
| Drive.FindFileByNameIsFirst | main.go:227-228 | any first matching position is the item the lookup returns |
| Drive.FindAfterAppend | main.go:221-231 | appending an item keeps an earlier match; otherwise the appended item is found exactly when it matches |
| Drive.FreshId | main.go:70 | the new id is non-empty and not used by any item in the store |
| Drive.Create | main.go:65-70 | appends exactly one item with a fresh id and the given fields; earlier items are unchanged |
| Drive.Overwritten | main.go:58-63 | an update keeps the id and trash flag and replaces the content; an empty name or MIME type keeps the old value; the target folder is added to the parents if it was absent |
| Drive.Update | main.go:63 | only the item with the id changes; length and ids are kept |
| Drive.LinkFor | main.go:77 | the link is the fixed prefix, the id and `/view` |
| Drive.IdOfLinkFor | main.go:77 | the id can be read back from the link |
| Drive.CreateDriveDirectory | main.go:198-219 | an existing match is reused with the store untouched; otherwise exactly one folder item is appended under the parent, with a fresh id; afterwards the lookup finds the returned id |
| Drive.CreateDriveDirectoryIdempotent | main.go:198-219 | a second call with the same arguments changes nothing and returns the same id |
| Drive.UploadToDrive | main.go:43-79 | lstat failure for a missing path; empty link and untouched store for a directory; an update rewrites only the found item, exactly as `Overwritten` with the given name, MIME type, folder and content, or else one new item is created in the folder; every non-empty link, and the link of every create, is the viewer link of the item's id |
| Drive.CreateKeepsUniqueIds | main.go:65-70 | creating keeps the ids distinct |
| Drive.UploadKeepsUniqueIds | main.go:57-71 | an upload keeps the ids distinct |
| Drive.CreateDriveDirectoryKeepsUniqueIds | main.go:207-213 | creating a folder keeps the ids distinct |
| Drive.LookupOfSameListings | main.go:221-231 | stores that agree on names, parents and trash flags give the same lookups |
| Drive.UpdateOfFoundKeepsListings | main.go:58-63 | updating the item the lookup found, under its own name and folder, keeps every listing |
| Drive.UploadKeepsItems | main.go:57-71 | an upload only appends or updates: ids are kept, parents only gain the folder, new items sit in the folder |
| Drive.UploadedIsFound | main.go:58-77 | after a regular-file upload, the lookup of its name in the folder finds the item the link names |
| Drive.UploadKeepsLookups | main.go:58-71 | an upload that followed the existence check leaves every lookup that had a match finding an item with the same id |
| Drive.CreateDriveDirectoryKeepsLookups | main.go:198-218 | a folder create keeps every lookup that already had a match |
| Drive.CreateDriveDirectoryKeepsItems | main.go:207-213 | a folder create keeps earlier items and puts the new one under the parent |
| Action.ResolveName | main.go:167-179 | the four-way precedence: the raw path with the complete-source option, else prefix then base name, else the explicit name, else the base name; without the complete-source option no `/` of the path reaches the name |
| Action.CompleteSourceNameWins | main.go:168-169 | with the complete-source option the name is the raw path whatever prefix or name is set, and differs from the escaped path when it has a space |
| Action.PrefixWinsOverName | main.go:170-173 | a prefix makes the name prefix plus base name, whatever the explicit name |
| Action.ExplicitNameIsConstant | main.go:174-175 | with only an explicit name, every path gets that same name |
| Action.DefaultNameIsBase | main.go:176-177 | with no naming option the name is the base name and holds no `/` |
| Action.OnlyBaseNameMatters | main.go:170-178 | without the complete-source option, paths with the same base name get the same name |
| Action.MirrorFolder | main.go:156-159 | the mirror step runs exactly when mirroring is on and the path has a directory part; it asks for the whole escaped directory as one name |
| Action.Mirrored | main.go:156-164 | no mirror means no change; an existing item with the folder's name leaves the store unchanged; otherwise exactly one folder item with a fresh id is appended in the target folder; the folder is found afterwards; ids stay distinct |
| Action.MirroredKeepsItems | main.go:156-164 | the mirror step keeps earlier items and places any new folder in the target folder |
| Action.MirroredKeepsLookups | main.go:156-164 | the mirror step keeps every lookup that already had a match |
| Action.ProcessFile | main.go:151-195 | a step fails exactly when the path is missing, with the lstat error; it reports an empty link exactly for a directory; for a missing path or a directory the store is what the mirror step left, with nothing rolled back |
| Action.ProcessFileKeepsItems | main.go:151-195 | a step keeps earlier items, adds at most a folder and a file, all in the target folder, and keeps ids distinct |
| Action.ProcessFileFindsUpload | main.go:181-191 | after a regular-file step the link names an item that the lookup of the resolved name finds |
| Action.ProcessFileCreatesNew | main.go:181-188 | when the existence check finds nothing, the step appends exactly one item with the resolved name, the MIME type input and the file's content, in the target folder only |
| Action.MirroredIntoEmpty | main.go:156-164 | on an empty store, the mirror step leaves exactly its folder, with the folder MIME type, in the target folder |
| Action.ProcessFileLinkNamesItem | main.go:187-194 | every link a step reports names an item of the store it leaves |
| Action.ReportsForNoError | main.go:151-191 | the loop ends without error exactly when every matched path exists |
| Action.ProcessFiles | main.go:150-195 | one link per processed path, empty exactly for directories; it stops at the first missing path with the lstat error |
| Action.ProcessFilesKeepsItems | main.go:150-195 | the loop keeps earlier items, adds only items in the target folder, keeps ids distinct, and every reported link names an item |
| Action.Run | main.go:81-195 | missing filename, bad pattern, no match, missing folder id, missing credentials and the failed authentication stage are reported in the code's order, before any change to the store; a run that passes every check is the upload loop over all matches and ends without error exactly when every match exists; the store only grows in the target folder |
| Action.SameNameUpdatesSameItem | main.go:181-191 | a second file resolving to an existing name updates that item: same link, no new file, and the content is the second file's |
| Action.RerunUpdatesSameItem | main.go:181-191 | uploading the same file again reports the same link and adds no file |
| Action.ExplicitNameOverwrites | main.go:172-191 | with one explicit name, two files end in a single item holding the last file's content |
| Action.OverwriteFlagIgnoredInStep | main.go:97-104 | the overwrite input does not change a step |
| Action.OverwriteFlagIgnoredInLoop | main.go:97-104 | the overwrite input does not change the loop |
| Action.OverwriteFlagIgnored | main.go:96-104 | the overwrite input does not change a run |
| Action.MirrorMakesOneFolderForWholeDirectory | main.go:155-188 | on an empty folder, a path with a nested directory yields exactly one folder named by the whole escaped directory, and the file next to it in the target folder |
| Action.SkippedDirectoryStillMirrored | main.go:151-191 | a matched directory is skipped with an empty link, yet the mirror step has already created its folder |

## Left out

- Network failures of the Drive API (listing, creating, updating; main.go:74, 201, 215, 225) are not modelled. The store never rejects a request, except an update of an id it does not hold.
- The query string of `findFileByName` (main.go:222) is replaced by its meaning: equal name, listed parent, not trashed. Quote and backslash characters in names are not modelled: both are special in the query language, and the space escape (main.go:153, 159) puts a backslash into every mirrored folder name whose directory had a space, so the service's exact match on such names is an assumption.
- Decoding the credentials, building the JWT configuration and creating the service client (main.go:128-148) are replaced by the `Auth` input, which says which stage failed.
- `filepath.Glob` (main.go:87) is replaced by the `Glob` input: an invalid pattern or the list of matches.
- `os.Open` failing after a successful `Lstat` (main.go:52-55) is not modelled. Symbolic links are not modelled either: the disk is a map from path to directory or regular file.
- Printing, warnings and the info log (main.go:49, 88, 100, 194) are left out.
- `strconv.ParseBool` (main.go:103, 118-119) is left out. The flags are booleans already, and an unparsable value is false.
- When the MIME type is empty on create, the service detects one. The model stores the empty string.
- Paths.Base: follows `filepath.Base` only for clean paths (no trailing or repeated `/`, no `.` or `..` segments); the empty path is not mapped to `.`.
- Paths.Dir: follows `filepath.Dir` only for clean paths, without its `Clean` step.
- Drive.FindFileByName: the service's listing order is taken to be creation order, stable from one call to the next, with new items listed last; the service does not guarantee this. When several items in the folder already share a name, which one is found (and so the "same link" parts of `Action.SameNameUpdatesSameItem`, `Action.RerunUpdatesSameItem`, `Action.ExplicitNameOverwrites` and the "keeps an earlier match" branch of `Drive.FindAfterAppend`) rests on that assumption.
- Drive.FindFileByName: the lookup is taken to see every item in the target folder. Two things break this. First, the program asks only for the `drive.file` scope (main.go:31), under which the listing shows only items this account created or opened, so a same-named item someone else put in the folder is never found. Second, create and update set `SupportsAllDrives` (main.go:63, 70, 213), but the listing (main.go:223) sets neither it nor `IncludeItemsFromAllDrives`, so for a target folder in a shared drive the service lists nothing and every run creates a new file and a new mirror folder. `Drive.CreateDriveDirectoryIdempotent`, `Action.RerunUpdatesSameItem`, `Action.SameNameUpdatesSameItem` and `Action.ExplicitNameOverwrites` hold only for a target folder the plain listing can see.
- Drive.Overwritten: keeping the old MIME type when the input is empty is an assumption about the service; since the update also uploads new content, the service may detect a new MIME type from it, as it does on create.
- Drive.FreshId: the service's id allocation is replaced by a deterministic fresh id, so only the distinctness of ids is promised.

=== FILE: action.dfy ===
/** The upload action itself: its inputs, the choice of the name an upload
    gets, the per-file step (mirror folder, name, existence check, upload)
    and the run over every matched path, threading the remote store.

    The run stops at the first fatal error; what the remote store holds at
    that point stays there (nothing is rolled back), so every outcome
    carries the store as it was left. */
module Action {
  import opened Wrappers
  import opened Paths
  import opened Drive

  /** The action's inputs, read once. The boolean inputs are already parsed
      (an unparsable value reads as false). */
  datatype Config = Config(
    filename: string,
    name: string,
    folderId: string,
    credentials: string,
    overwrite: bool,
    mimeType: string,
    useCompleteSourceName: bool,
    mirrorDirectoryStructure: bool,
    namePrefix: string)

  /** What expanding the `filename` pattern produced. */
  datatype Glob = BadPattern | Matches(files: seq<string>)

  /** How far authentication got: decoding the base64 credentials, building
      the JWT configuration, creating the service client. */
  datatype Auth = Authorized | DecodeFailed | JwtConfigFailed | ServiceFailed

  /** The fatal errors that end a run. */
  datatype Fatal =
    | MissingInput(input: string)
    | InvalidPattern
    | NoFileFound(pattern: string)
    | AuthFailed(stage: Auth)
    | UploadFailed(cause: UploadError)

  /** The remote store as the run left it, the link reported for each file
      processed (empty for a skipped directory), and the error that stopped
      the run, if any. */
  datatype Outcome = Outcome(store: Store, links: seq<string>, error: Option<Fatal>)

  /** The name a matched path is uploaded under: the raw path when the
      complete-source option is on, else the prefix and the base name when
      a prefix is set, else the explicit name when one is set, else the
      base name. */
  function ResolveName(cfg: Config, file: string): (n: string)
    ensures cfg.useCompleteSourceName ==> n == file
    ensures !cfg.useCompleteSourceName && cfg.namePrefix != "" ==>
      |n| == |cfg.namePrefix| + |Base(file)| && n[..|cfg.namePrefix|] == cfg.namePrefix && n[|cfg.namePrefix|..] == Base(file)
    ensures !cfg.useCompleteSourceName && cfg.namePrefix == "" && cfg.name != "" ==> n == cfg.name
    ensures !cfg.useCompleteSourceName && cfg.namePrefix == "" && cfg.name == "" ==> n == Base(file)
    // the directory part of the path only reaches the name through the complete-source option
    ensures !cfg.useCompleteSourceName && '/' !in cfg.namePrefix && '/' !in cfg.name ==> '/' !in n
  {
    if cfg.useCompleteSourceName then file
    else if cfg.namePrefix != "" then cfg.namePrefix + Base(file)
    else if cfg.name != "" then cfg.name
    else Base(file)
  }

  /** The complete-source option wins over prefix and explicit name,
      whatever they are, and the path is taken as it is: its spaces are
      not escaped. */
  lemma CompleteSourceNameWins(cfg: Config, file: string, prefix: string, name: string)
    requires cfg.useCompleteSourceName
    ensures ResolveName(cfg.(namePrefix := prefix, name := name), file) == file
    ensures ' ' in file ==> ResolveName(cfg, file) != EscapeSpaces(file)
  {
    if ' ' in file {
      SpacesCounted(file);
    }
  }

  lemma {:induction false} SpacesCounted(s: string)
    requires ' ' in s
    ensures CountSpaces(s) > 0
  {
    if s[0] != ' ' {
      assert ' ' in s[1..] by {
        var i :| 0 <= i < |s| && s[i] == ' ';
        assert s[1..][i - 1] == ' ';
      }
      SpacesCounted(s[1..]);
    }
  }

  /** Without the complete-source option a prefix wins over the explicit
      name: the result is the prefix followed by the base name, whatever
      the explicit name is. */
  lemma PrefixWinsOverName(cfg: Config, file: string, name: string)
    requires !cfg.useCompleteSourceName && cfg.namePrefix != ""
    ensures ResolveName(cfg.(name := name), file) == ResolveName(cfg, file)
    ensures ResolveName(cfg, file) == cfg.namePrefix + Base(file)
  {
  }

  /** With only an explicit name set, every matched path gets that very
      name: no two files are told apart. */
  lemma ExplicitNameIsConstant(cfg: Config, file1: string, file2: string)
    requires !cfg.useCompleteSourceName && cfg.namePrefix == "" && cfg.name != ""
    ensures ResolveName(cfg, file1) == cfg.name == ResolveName(cfg, file2)
  {
  }

  /** With no naming option the upload keeps the file's base name, which
      holds no `/`. */
  lemma DefaultNameIsBase(cfg: Config, file: string)
    requires !cfg.useCompleteSourceName && cfg.namePrefix == "" && cfg.name == ""
    ensures ResolveName(cfg, file) == Base(file)
    ensures '/' !in ResolveName(cfg, file)
  {
  }

  /** Unless the complete-source option is on, the directory part of a path
      never reaches the name: paths with the same base name collide. */
  lemma OnlyBaseNameMatters(cfg: Config, file1: string, file2: string)
    requires !cfg.useCompleteSourceName && Base(file1) == Base(file2)
    ensures ResolveName(cfg, file1) == ResolveName(cfg, file2)
  {
  }

  /** The folder the mirror step asks `createDriveDirectory` for, if it
      runs: only with mirroring on and a path that has a directory part;
      the folder name is that whole directory, spaces escaped, as one
      name. */
  function MirrorFolder(cfg: Config, file: string): (r: Option<string>)
    ensures r.Some? <==> cfg.mirrorDirectoryStructure && Dir(file) != "."
    ensures r.Some? ==> r.value == EscapeSpaces(Dir(file))
  {
    EscapedDirIsDotIff(file);
    DirOfEscaped(file);
    var fileDir := Dir(EscapeSpaces(file));
    if cfg.mirrorDirectoryStructure && fileDir != "." then Some(fileDir) else None
  }

  /** The remote store after the mirror step of one file. */
  function Mirrored(cfg: Config, st: Store, file: string): (st': Store)
    ensures MirrorFolder(cfg, file).None? ==> st' == st
    // an existing item with the folder's name is reused; otherwise one folder is appended
    ensures MirrorFolder(cfg, file).Some? ==>
      var dir := MirrorFolder(cfg, file).value;
      && (FindFileByName(st, dir, cfg.folderId).Some? ==> st' == st)
      && (FindFileByName(st, dir, cfg.folderId).None? ==>
            && |st'.items| == |st.items| + 1
            && !st.HasId(st'.items[|st.items|].id)
            && st'.items == st.items + [Item(st'.items[|st.items|].id, dir, FolderMimeType, [cfg.folderId], false, [])])
      && FindFileByName(st', dir, cfg.folderId).Some?
    ensures st.UniqueIds() ==> st'.UniqueIds()
  {
    match MirrorFolder(cfg, file)
    case None => st
    case Some(dir) =>
      CreateDriveDirectoryKeepsUniqueIds(st, cfg.folderId, dir);
      CreateDriveDirectory(st, cfg.folderId, dir).0
  }

  /** One iteration of the loop over matched paths: the mirror step, the
      name, the existence check in the root folder, the upload into the
      root folder. The folder the mirror step made or found is not used. */
  function ProcessFile(cfg: Config, fs: FileSystem, st: Store, file: string): (r: (Store, Result<string, Fatal>))
    ensures r.1.Failure? <==> file !in fs
    ensures r.1.Failure? ==> r.1.error == UploadFailed(LstatFailed(file))
    ensures r.1.Success? ==> (r.1.value == "" <==> fs[file].Directory?)
    // a missing path or a directory leaves exactly what the mirror step made: nothing is rolled back
    ensures file !in fs || fs[file].Directory? ==> r.0 == Mirrored(cfg, st, file)
  {
    var st1 := Mirrored(cfg, st, file);
    var uploadName := ResolveName(cfg, file);
    var existing := FindFileByName(st1, uploadName, cfg.folderId);
    var u := UploadToDrive(st1, fs, file, cfg.folderId, existing, uploadName, cfg.mimeType);
    if u.Failure? then (st1, Failure(UploadFailed(u.error)))
    else (u.value.0, Success(u.value.1))
  }

  /** One step keeps every item in place under its id, adds at most the
      mirror folder and the uploaded item, both directly in the root
      folder, and keeps ids unique. */
  lemma ProcessFileKeepsItems(cfg: Config, fs: FileSystem, st: Store, file: string)
    ensures var r := ProcessFile(cfg, fs, st, file);
      && KeepsItems(st, r.0, cfg.folderId)
      && NewItemsInRoot(st, r.0, cfg.folderId)
      && |r.0.items| <= |st.items| + (if MirrorFolder(cfg, file).Some? then 1 else 0) + 1
      && (st.UniqueIds() ==> r.0.UniqueIds())
  {
    var st1 := Mirrored(cfg, st, file);
    var uploadName := ResolveName(cfg, file);
    var existing := FindFileByName(st1, uploadName, cfg.folderId);
    var u := UploadToDrive(st1, fs, file, cfg.folderId, existing, uploadName, cfg.mimeType);
    UploadKeepsUniqueIds(st1, fs, file, cfg.folderId, existing, uploadName, cfg.mimeType);
    UploadKeepsItems(st1, fs, file, cfg.folderId, existing, uploadName, cfg.mimeType);
    MirroredKeepsItems(cfg, st, file);
    if u.Success? {
      KeepsItemsCompose(st, st1, u.value.0, cfg.folderId);
      assert ProcessFile(cfg, fs, st, file) == (u.value.0, Success(u.value.1));
    }
  }

  /** After one step, the existence check for the file's name finds the
      very item whose link the step reported. */
  lemma ProcessFileFindsUpload(cfg: Config, fs: FileSystem, st: Store, file: string)
    requires st.UniqueIds()
    ensures var r := ProcessFile(cfg, fs, st, file);
      r.1.Success? && r.1.value != "" ==>
        && r.1.value == LinkFor(IdOfLink(r.1.value))
        && FindFileByName(r.0, ResolveName(cfg, file), cfg.folderId).Some?
        && FindFileByName(r.0, ResolveName(cfg, file), cfg.folderId).value.id == IdOfLink(r.1.value)
  {
    var st1 := Mirrored(cfg, st, file);
    var uploadName := ResolveName(cfg, file);
    var existing := FindFileByName(st1, uploadName, cfg.folderId);
    var u := UploadToDrive(st1, fs, file, cfg.folderId, existing, uploadName, cfg.mimeType);
    UploadedIsFound(st1, fs, file, cfg.folderId, existing, uploadName, cfg.mimeType);
    if u.Success? {
      assert ProcessFile(cfg, fs, st, file) == (u.value.0, Success(u.value.1));
    }
  }

  /** The mirror step keeps every item and adds at most a root folder. */
  lemma MirroredKeepsItems(cfg: Config, st: Store, file: string)
    ensures KeepsItems(st, Mirrored(cfg, st, file), cfg.folderId)
    ensures NewItemsInRoot(st, Mirrored(cfg, st, file), cfg.folderId)
  {
    if MirrorFolder(cfg, file).Some? {
      CreateDriveDirectoryKeepsItems(st, cfg.folderId, MirrorFolder(cfg, file).value);
    }
  }

  /** `links` and `error` are what a loop over `files` can report: it
      stops exactly at the first path `lstat` cannot find, and before that
      reports one link per path, empty exactly for directories. */
  predicate ReportsFor(fs: FileSystem, files: seq<string>, links: seq<string>, error: Option<Fatal>)
  {
    && |links| <= |files|
    && (forall k :: 0 <= k < |links| ==> files[k] in fs && (links[k] == "" <==> fs[files[k]].Directory?))
    && (error.None? ==> |links| == |files|)
    && (error.Some? ==>
          && |links| < |files|
          && files[|links|] !in fs
          && error.value == UploadFailed(LstatFailed(files[|links|])))
  }

  /** A run without error saw every path; a run with error stopped at a
      missing path. */
  lemma ReportsForNoError(fs: FileSystem, files: seq<string>, links: seq<string>, error: Option<Fatal>)
    requires ReportsFor(fs, files, links, error)
    ensures error.None? <==> forall k :: 0 <= k < |files| ==> files[k] in fs
  {
  }

  lemma ReportsForCons(fs: FileSystem, files: seq<string>, link: string, links: seq<string>, error: Option<Fatal>)
    requires |files| > 0 && files[0] in fs && (link == "" <==> fs[files[0]].Directory?)
    requires ReportsFor(fs, files[1..], links, error)
    ensures ReportsFor(fs, files, [link] + links, error)
  {
    var all := [link] + links;
    forall k | 0 <= k < |all|
      ensures files[k] in fs && (all[k] == "" <==> fs[files[k]].Directory?)
    {
      if k > 0 {
        assert all[k] == links[k - 1] && files[k] == files[1..][k - 1];
      }
    }
    if error.Some? {
      assert files[|all|] == files[1..][|links|];
    }
  }

  /** The loop over matched paths, stopping at the first fatal error. */
  function ProcessFiles(cfg: Config, fs: FileSystem, st: Store, files: seq<string>): (r: Outcome)
    ensures ReportsFor(fs, files, r.links, r.error)
    decreases |files|
  {
    if |files| == 0 then Outcome(st, [], None)
    else
      var step := ProcessFile(cfg, fs, st, files[0]);
      if step.1.Failure? then Outcome(step.0, [], Some(step.1.error))
      else
        var rest := ProcessFiles(cfg, fs, step.0, files[1..]);
        ReportsForCons(fs, files, step.1.value, rest.links, rest.error);
        Outcome(rest.store, [step.1.value] + rest.links, rest.error)
  }

  /** Every non-empty link is a viewer link of an item of `st`. */
  predicate LinksNameItems(st: Store, links: seq<string>)
  {
    forall k :: 0 <= k < |links| && links[k] != "" ==>
      links[k] == LinkFor(IdOfLink(links[k])) && st.HasId(IdOfLink(links[k]))
  }

  /** Over the whole loop, every item already in the store stays in place
      under its id, every new item sits directly in the root folder, ids
      stay unique, and every reported link names an item of the final
      store. */
  lemma {:induction false} ProcessFilesKeepsItems(cfg: Config, fs: FileSystem, st: Store, files: seq<string>)
    ensures var r := ProcessFiles(cfg, fs, st, files);
      && KeepsItems(st, r.store, cfg.folderId)
      && NewItemsInRoot(st, r.store, cfg.folderId)
      && (st.UniqueIds() ==> r.store.UniqueIds())
      && LinksNameItems(r.store, r.links)
    decreases |files|
  {
    if |files| > 0 {
      var step := ProcessFile(cfg, fs, st, files[0]);
      ProcessFileKeepsItems(cfg, fs, st, files[0]);
      if step.1.Success? {
        var link := step.1.value;
        var rest := ProcessFiles(cfg, fs, step.0, files[1..]);
        ProcessFilesKeepsItems(cfg, fs, step.0, files[1..]);
        KeepsItemsCompose(st, step.0, rest.store, cfg.folderId);
        ProcessFileLinkNamesItem(cfg, fs, st, files[0]);
        KeepsItemsKeepIds(step.0, rest.store, cfg.folderId, IdOfLink(link));
        assert ProcessFiles(cfg, fs, st, files) == Outcome(rest.store, [link] + rest.links, rest.error);
        LinksNameItemsCons(rest.store, link, rest.links);
      } else {
        assert ProcessFiles(cfg, fs, st, files) == Outcome(step.0, [], Some(step.1.error));
      }
    } else {
      assert ProcessFiles(cfg, fs, st, files) == Outcome(st, [], None);
    }
  }

  lemma LinksNameItemsCons(st: Store, link: string, links: seq<string>)
    requires link != "" ==> link == LinkFor(IdOfLink(link)) && st.HasId(IdOfLink(link))
    requires LinksNameItems(st, links)
    ensures LinksNameItems(st, [link] + links)
  {
    var all := [link] + links;
    forall k | 1 <= k < |all| ensures all[k] == links[k - 1] {
    }
  }

  /** A non-empty link of one step names an item of the store it left. */
  lemma ProcessFileLinkNamesItem(cfg: Config, fs: FileSystem, st: Store, file: string)
    ensures var r := ProcessFile(cfg, fs, st, file);
      r.1.Success? && r.1.value != "" ==>
        r.0.HasId(IdOfLink(r.1.value)) && r.1.value == LinkFor(IdOfLink(r.1.value))
  {
    var st1 := Mirrored(cfg, st, file);
    var uploadName := ResolveName(cfg, file);
    var existing := FindFileByName(st1, uploadName, cfg.folderId);
    var u := UploadToDrive(st1, fs, file, cfg.folderId, existing, uploadName, cfg.mimeType);
    assert u.Success? ==> ProcessFile(cfg, fs, st, file) == (u.value.0, Success(u.value.1));
  }

  /** The whole run: required inputs, pattern expansion, authentication,
      then the loop. Every abort before the loop leaves the remote store
      untouched. */
  function Run(cfg: Config, glob: Glob, auth: Auth, fs: FileSystem, st: Store): (r: Outcome)
    ensures cfg.filename == "" ==> r == Outcome(st, [], Some(MissingInput("filename")))
    ensures cfg.filename != "" && glob.BadPattern? ==> r == Outcome(st, [], Some(InvalidPattern))
    ensures cfg.filename != "" && glob == Matches([]) ==> r == Outcome(st, [], Some(NoFileFound(cfg.filename)))
    ensures cfg.folderId == "" || cfg.credentials == "" || auth != Authorized ==>
      r.store == st && r.links == [] && r.error.Some?
    ensures cfg.filename != "" && glob.Matches? && glob.files != [] && cfg.folderId == "" ==>
      r.error == Some(MissingInput("folderId"))
    ensures cfg.filename != "" && glob.Matches? && glob.files != [] && cfg.folderId != "" && cfg.credentials == "" ==>
      r.error == Some(MissingInput("credentials"))
    ensures cfg.filename != "" && glob.Matches? && glob.files != [] && cfg.folderId != "" && cfg.credentials != ""
            && auth != Authorized ==>
      r.error == Some(AuthFailed(auth))
    // a run whose input checks all pass is the upload loop over every match
    ensures cfg.filename != "" && glob.Matches? && glob.files != [] && cfg.folderId != "" && cfg.credentials != ""
            && auth == Authorized ==>
      && r == ProcessFiles(cfg, fs, st, glob.files)
      && (r.error.None? <==> forall k :: 0 <= k < |glob.files| ==> glob.files[k] in fs)
    ensures r.error.None? ==> glob.Matches? && |r.links| == |glob.files| > 0
    ensures r.links != [] || r.error.None? || r.error.value.UploadFailed? ==>
      glob.Matches? && ReportsFor(fs, glob.files, r.links, r.error)
    ensures KeepsItems(st, r.store, cfg.folderId)
    ensures NewItemsInRoot(st, r.store, cfg.folderId)
  {
    if cfg.filename == "" then Outcome(st, [], Some(MissingInput("filename")))
    else match glob
      case BadPattern => Outcome(st, [], Some(InvalidPattern))
      case Matches(files) =>
        if |files| == 0 then Outcome(st, [], Some(NoFileFound(cfg.filename)))
        else if cfg.folderId == "" then Outcome(st, [], Some(MissingInput("folderId")))
        else if cfg.credentials == "" then Outcome(st, [], Some(MissingInput("credentials")))
        else if auth != Authorized then Outcome(st, [], Some(AuthFailed(auth)))
        else
          ProcessFilesKeepsItems(cfg, fs, st, files);
          var out := ProcessFiles(cfg, fs, st, files);
          ReportsForNoError(fs, files, out.links, out.error);
          out
  }

  /** The mirror step leaves every lookup that found something finding the
      same item. */
  lemma MirroredKeepsLookups(cfg: Config, st: Store, file: string, qName: string, qParent: string)
    requires FindFileByName(st, qName, qParent).Some?
    ensures FindFileByName(Mirrored(cfg, st, file), qName, qParent) == FindFileByName(st, qName, qParent)
  {
    if MirrorFolder(cfg, file).Some? {
      CreateDriveDirectoryKeepsLookups(st, cfg.folderId, MirrorFolder(cfg, file).value, qName, qParent);
    }
  }

  /** Two regular files that resolve to the same name end up in one item:
      the second upload updates the item the first one made or updated
      (same link), creates no file item of its own, and leaves the second
      file's content behind. */
  lemma SameNameUpdatesSameItem(cfg: Config, fs: FileSystem, st: Store, file1: string, file2: string)
    requires st.UniqueIds()
    requires file1 in fs && fs[file1].RegularFile? && file2 in fs && fs[file2].RegularFile?
    requires ResolveName(cfg, file1) == ResolveName(cfg, file2)
    ensures var p1 := ProcessFile(cfg, fs, st, file1);
      var p2 := ProcessFile(cfg, fs, p1.0, file2);
      && p1.1.Success? && p2.1 == p1.1
      && |p2.0.items| <= |p1.0.items| + (if MirrorFolder(cfg, file2).Some? then 1 else 0)
      && FindFileByName(p2.0, ResolveName(cfg, file2), cfg.folderId).Some?
      && FindFileByName(p2.0, ResolveName(cfg, file2), cfg.folderId).value.content == fs[file2].content
  {
    var name := ResolveName(cfg, file2);
    var p1 := ProcessFile(cfg, fs, st, file1);
    var st1, r1 := p1.0, p1.1;
    ProcessFileFindsUpload(cfg, fs, st, file1);
    ProcessFileKeepsItems(cfg, fs, st, file1);
    var id := IdOfLink(r1.value);
    var m := Mirrored(cfg, st1, file2);
    MirroredKeepsLookups(cfg, st1, file2, name, cfg.folderId);
    var existing := FindFileByName(m, name, cfg.folderId);
    assert existing.value.id == id;
    var u := UploadToDrive(m, fs, file2, cfg.folderId, existing, name, cfg.mimeType);
    assert m.HasId(id) by {
      var k: nat :| IsFirstMatch(m.items, k, name, cfg.folderId) && existing.value == m.items[k];
    }
    assert ProcessFile(cfg, fs, st1, file2) == (u.value.0, Success(u.value.1));
    UploadedIsFound(m, fs, file2, cfg.folderId, existing, name, cfg.mimeType);
    var found := FindFileByName(u.value.0, name, cfg.folderId).value;
    var k: nat :| IsFirstMatch(u.value.0.items, k, name, cfg.folderId) && found == u.value.0.items[k];
    assert m.items[k].id == id;
  }

  /** Running the same regular file twice adds nothing the second time: the
      mirror folder and the uploaded item are found and reused, and the
      link is the same. */
  lemma RerunUpdatesSameItem(cfg: Config, fs: FileSystem, st: Store, file: string)
    requires st.UniqueIds()
    requires file in fs && fs[file].RegularFile?
    ensures var p1 := ProcessFile(cfg, fs, st, file);
      var p2 := ProcessFile(cfg, fs, p1.0, file);
      p2.1 == p1.1 && |p2.0.items| == |p1.0.items|
  {
    var st1 := ProcessFile(cfg, fs, st, file).0;
    SameNameUpdatesSameItem(cfg, fs, st, file, file);
    if MirrorFolder(cfg, file).Some? {
      var dir := MirrorFolder(cfg, file).value;
      var s1 := Mirrored(cfg, st, file);
      var name := ResolveName(cfg, file);
      UploadKeepsLookups(s1, fs, file, cfg.folderId, FindFileByName(s1, name, cfg.folderId),
                         name, cfg.mimeType, dir, cfg.folderId);
      assert Mirrored(cfg, st1, file) == st1;
    }
  }

  /** With only an explicit name set, two regular files matched by one run
      collide: both report the same link and the item holds the second
      file's content. */
  lemma ExplicitNameOverwrites(cfg: Config, fs: FileSystem, st: Store, file1: string, file2: string)
    requires !cfg.useCompleteSourceName && cfg.namePrefix == "" && cfg.name != ""
    requires st.UniqueIds()
    requires file1 in fs && fs[file1].RegularFile? && file2 in fs && fs[file2].RegularFile?
    ensures var r := ProcessFiles(cfg, fs, st, [file1, file2]);
      && r.error.None?
      && |r.links| == 2 && r.links[0] == r.links[1]
      && FindFileByName(r.store, cfg.name, cfg.folderId).Some?
      && FindFileByName(r.store, cfg.name, cfg.folderId).value.content == fs[file2].content
  {
    SameNameUpdatesSameItem(cfg, fs, st, file1, file2);
    var p1 := ProcessFile(cfg, fs, st, file1);
    var p2 := ProcessFile(cfg, fs, p1.0, file2);
    assert p1.1.Success? && p2.1.Success?;
    assert [file1, file2][1..] == [file2];
    assert [file2][1..] == [];
    var tail := ProcessFiles(cfg, fs, p1.0, [file2]);
    assert ProcessFiles(cfg, fs, p2.0, []) == Outcome(p2.0, [], None);
    assert tail == Outcome(p2.0, [p2.1.value], None);
    assert ProcessFiles(cfg, fs, st, [file1, file2]) == Outcome(p2.0, [p1.1.value] + tail.links, None);
  }

  /** The overwrite input is read but decides nothing: create or update is
      chosen by the existence check alone. */
  lemma OverwriteFlagIgnoredInStep(cfg: Config, fs: FileSystem, st: Store, file: string, overwrite: bool)
    ensures ProcessFile(cfg.(overwrite := overwrite), fs, st, file) == ProcessFile(cfg, fs, st, file)
  {
    var cfg' := cfg.(overwrite := overwrite);
    assert ResolveName(cfg', file) == ResolveName(cfg, file);
    assert MirrorFolder(cfg', file) == MirrorFolder(cfg, file);
    assert Mirrored(cfg', st, file) == Mirrored(cfg, st, file);
  }

  lemma {:induction false} OverwriteFlagIgnoredInLoop(cfg: Config, fs: FileSystem, st: Store, files: seq<string>, overwrite: bool)
    ensures ProcessFiles(cfg.(overwrite := overwrite), fs, st, files) == ProcessFiles(cfg, fs, st, files)
    decreases |files|
  {
    if |files| > 0 {
      OverwriteFlagIgnoredInStep(cfg, fs, st, files[0], overwrite);
      OverwriteFlagIgnoredInLoop(cfg, fs, ProcessFile(cfg, fs, st, files[0]).0, files[1..], overwrite);
    }
  }

  lemma OverwriteFlagIgnored(cfg: Config, glob: Glob, auth: Auth, fs: FileSystem, st: Store, overwrite: bool)
    ensures Run(cfg.(overwrite := overwrite), glob, auth, fs, st) == Run(cfg, glob, auth, fs, st)
  {
    if glob.Matches? {
      OverwriteFlagIgnoredInLoop(cfg, fs, st, glob.files, overwrite);
    }
  }

  /** With mirroring on, a file `dir/base` uploaded into an empty root
      folder makes exactly one folder, named by the whole escaped `dir`
      (for `a/b/file.txt`, one folder `a/b`, not a chain `a` then `b`),
      directly in the root folder; the file itself also lands in the root
      folder, not in that folder. */
  lemma MirrorMakesOneFolderForWholeDirectory(cfg: Config, dir: string, base: string, content: seq<byte>)
    requires cfg.mirrorDirectoryStructure && !cfg.useCompleteSourceName
    requires cfg.namePrefix == "" && cfg.name == ""
    requires dir != "" && dir != "." && '/' !in base && base != EscapeSpaces(dir)
    ensures var file := dir + "/" + base;
      var r := ProcessFile(cfg, map[file := RegularFile(content)], Store([]), file);
      && r.1.Success?
      && |r.0.items| == 2
      && r.0.items[0].name == EscapeSpaces(dir) && r.0.items[0].mimeType == FolderMimeType
      && r.0.items[0].parents == [cfg.folderId]
      && r.0.items[1].name == base && r.0.items[1].parents == [cfg.folderId]
      && r.0.items[1].content == content
  {
    var file := dir + "/" + base;
    JoinParts(dir, base);
    assert ResolveName(cfg, file) == base;
    assert MirrorFolder(cfg, file) == Some(EscapeSpaces(dir));
    MirroredIntoEmpty(cfg, file);
    var st1 := Mirrored(cfg, Store([]), file);
    assert !IsMatch(st1.items[0], base, cfg.folderId);
    assert FindFileByName(st1, base, cfg.folderId).None?;
    ProcessFileCreatesNew(cfg, map[file := RegularFile(content)], Store([]), file);
  }

  /** On an empty store the mirror step, when it runs, leaves exactly its
      folder, directly in the root folder. */
  lemma MirroredIntoEmpty(cfg: Config, file: string)
    requires MirrorFolder(cfg, file).Some?
    ensures var st1 := Mirrored(cfg, Store([]), file);
      && |st1.items| == 1
      && st1.items[0].name == MirrorFolder(cfg, file).value
      && st1.items[0].mimeType == FolderMimeType
      && st1.items[0].parents == [cfg.folderId]
  {
  }

  /** When the existence check after the mirror step finds nothing, the
      step appends exactly one item for the file, directly in the root
      folder, after whatever the mirror step left. */
  lemma ProcessFileCreatesNew(cfg: Config, fs: FileSystem, st: Store, file: string)
    requires file in fs && fs[file].RegularFile?
    requires FindFileByName(Mirrored(cfg, st, file), ResolveName(cfg, file), cfg.folderId).None?
    ensures var r := ProcessFile(cfg, fs, st, file);
      && r.1.Success?
      && r.0.items == Mirrored(cfg, st, file).items +
           [Item(IdOfLink(r.1.value), ResolveName(cfg, file), cfg.mimeType, [cfg.folderId], false, fs[file].content)]
  {
    var st1 := Mirrored(cfg, st, file);
    var u := UploadToDrive(st1, fs, file, cfg.folderId, None, ResolveName(cfg, file), cfg.mimeType);
    assert ProcessFile(cfg, fs, st, file) == (u.value.0, Success(u.value.1));
  }

  /** A matched directory is not uploaded, yet with mirroring on the
      directory holding it is still created in the root folder before the
      upload step skips it. */
  lemma SkippedDirectoryStillMirrored(cfg: Config, dir: string, base: string)
    requires cfg.mirrorDirectoryStructure
    requires dir != "" && dir != "." && '/' !in base
    ensures var file := dir + "/" + base;
      var r := ProcessFile(cfg, map[file := Directory], Store([]), file);
      && r.1 == Success("")
      && |r.0.items| == 1
      && r.0.items[0].name == EscapeSpaces(dir) && r.0.items[0].mimeType == FolderMimeType
  {
    var file := dir + "/" + base;
    DirOfJoin(dir, base);
    assert MirrorFolder(cfg, file) == Some(EscapeSpaces(dir));
  }
}

=== FILE: drive.dfy ===
/** The remote store as the upload step sees it, and the three operations
    the program performs on it: lookup by name and parent
    (`findFileByName`), folder create-or-reuse (`createDriveDirectory`) and
    the create-or-update upload (`uploadToDrive`).

    The store is a sequence of items in the order the service lists them.
    A create appends one item whose id no item of the store carries; an
    update rewrites the item with the given id in place. The local
    filesystem is a map from path to entry: a path that is absent makes
    `lstat` fail. */
module Drive {
  import opened Wrappers

  newtype byte = x: int | 0 <= x < 256

  /** MIME type the service reserves for folders. */
  const FolderMimeType: string := "application/vnd.google-apps.folder"

  /** Fixed text around the item id in a viewer link. */
  const LinkPrefix: string := "https://drive.google.com/file/d/"
  const LinkSuffix: string := "/view"

  datatype Item = Item(
    id: string,
    name: string,
    mimeType: string,
    parents: seq<string>,
    trashed: bool,
    content: seq<byte>)

  datatype Store = Store(items: seq<Item>) {

    /** Does some item carry this id? */
    predicate HasId(id: string) {
      exists i :: 0 <= i < |items| && items[i].id == id
    }

    /** No two items share an id (the service's guarantee). */
    predicate UniqueIds() {
      forall i, j :: 0 <= i < j < |items| ==> items[i].id != items[j].id
    }
  }

  /** A local path as `lstat` reports it. */
  datatype Entry = Directory | RegularFile(content: seq<byte>)

  type FileSystem = map<string, Entry>

  /** Why `uploadToDrive` gave up. */
  datatype UploadError =
    | LstatFailed(path: string)
    | UpdateFailed(id: string)

  /** An item answers the lookup query: exact name, the given parent among
      its parents, and not in the trash. */
  predicate IsMatch(it: Item, name: string, parent: string) {
    it.name == name && parent in it.parents && !it.trashed
  }

  /** `i` is the position of the first answer to the lookup query. */
  ghost predicate IsFirstMatch(items: seq<Item>, i: nat, name: string, parent: string) {
    && i < |items|
    && IsMatch(items[i], name, parent)
    && forall j :: 0 <= j < i ==> !IsMatch(items[j], name, parent)
  }

  /** Position of the first item answering the lookup query. */
  function FirstMatch(items: seq<Item>, name: string, parent: string): (r: Option<nat>)
    ensures r.Some? ==> IsFirstMatch(items, r.value, name, parent)
    ensures r.None? ==> forall j :: 0 <= j < |items| ==> !IsMatch(items[j], name, parent)
  {
    if |items| == 0 then None
    else if IsMatch(items[0], name, parent) then Some(0)
    else match FirstMatch(items[1..], name, parent)
      case None => None
      case Some(k) => Some(k + 1)
  }

  /** `findFileByName`: the first listed item with this exact name under
      this parent that is not trashed, or nothing. The store is only read. */
  function FindFileByName(st: Store, name: string, parent: string): (r: Option<Item>)
    ensures r.None? <==> forall j :: 0 <= j < |st.items| ==> !IsMatch(st.items[j], name, parent)
    ensures r.Some? ==> exists i: nat :: IsFirstMatch(st.items, i, name, parent) && r.value == st.items[i]
  {
    match FirstMatch(st.items, name, parent)
    case None => None
    case Some(i) => Some(st.items[i])
  }

  /** The first match is unique: a position that is the first match is
      the one `FirstMatch` reports. */
  lemma FirstMatchIsUnique(items: seq<Item>, name: string, parent: string, i: nat)
    requires IsFirstMatch(items, i, name, parent)
    ensures FirstMatch(items, name, parent) == Some(i)
  {
    var r := FirstMatch(items, name, parent);
    assert r.Some?;
  }

  /** The lookup is determined by the first match: any position that is
      the first match yields that very item. */
  lemma FindFileByNameIsFirst(st: Store, name: string, parent: string, i: nat)
    requires IsFirstMatch(st.items, i, name, parent)
    ensures FindFileByName(st, name, parent) == Some(st.items[i])
  {
    FirstMatchIsUnique(st.items, name, parent, i);
  }

  /** Appending an item never changes a lookup that already found
      something, and a lookup that found nothing finds the new item exactly
      when it answers the query. */
  lemma FindAfterAppend(st: Store, it: Item, name: string, parent: string)
    ensures var st' := Store(st.items + [it]);
      FindFileByName(st', name, parent) ==
        if FindFileByName(st, name, parent).Some? then FindFileByName(st, name, parent)
        else if IsMatch(it, name, parent) then Some(it)
        else None
  {
    var st' := Store(st.items + [it]);
    match FirstMatch(st.items, name, parent)
    case Some(i) =>
      assert IsFirstMatch(st'.items, i, name, parent);
      FindFileByNameIsFirst(st', name, parent, i);
    case None =>
      if IsMatch(it, name, parent) {
        assert IsFirstMatch(st'.items, |st.items|, name, parent);
        FindFileByNameIsFirst(st', name, parent, |st.items|);
      } else {
        assert forall j :: 0 <= j < |st'.items| ==> !IsMatch(st'.items[j], name, parent);
      }
  }

  /** Longest id in the store. */
  function MaxIdLength(items: seq<Item>): (n: nat)
    ensures forall i :: 0 <= i < |items| ==> |items[i].id| <= n
  {
    if |items| == 0 then 0
    else
      var rest := MaxIdLength(items[1..]);
      assert forall i :: 1 <= i < |items| ==> items[i] == items[1..][i - 1];
      if |items[0].id| > rest then |items[0].id| else rest
  }

  /** The id the service hands out for the next created item: longer than
      every id in the store, so it names no existing item. */
  function FreshId(st: Store): (id: string)
    ensures !st.HasId(id)
    ensures id != ""
  {
    seq(MaxIdLength(st.items) + 1, _ => '0')
  }

  /** Appends a new item with a fresh id; returns the new store and the id. */
  function Create(st: Store, name: string, mimeType: string, parents: seq<string>, content: seq<byte>): (r: (Store, string))
    ensures !st.HasId(r.1)
    ensures r.0.items == st.items + [Item(r.1, name, mimeType, parents, false, content)]
  {
    var id := FreshId(st);
    (Store(st.items + [Item(id, name, mimeType, parents, false, content)]), id)
  }

  /** `after` is `before` with `parent` added, and only if it was missing:
      the parent list never loses an entry or gains any other one. */
  predicate AddedParent(before: seq<string>, after: seq<string>, parent: string) {
    after == before || (parent !in before && after == before + [parent])
  }

  /** What `Files.Update(id, {Name, MimeType}).AddParents(parent).Media(...)`
      does to one item: empty metadata fields are omitted from the request
      and leave the item's value alone; the parent is added unless it is
      already there; the content is replaced. */
  function Overwritten(it: Item, name: string, mimeType: string, parent: string, content: seq<byte>): (r: Item)
    ensures r.id == it.id && r.trashed == it.trashed && r.content == content
    ensures parent in r.parents
    ensures AddedParent(it.parents, r.parents, parent)
    ensures name != "" ==> r.name == name
    ensures name == "" ==> r.name == it.name
    ensures mimeType != "" ==> r.mimeType == mimeType
    ensures mimeType == "" ==> r.mimeType == it.mimeType
  {
    it.(name := if name == "" then it.name else name,
        mimeType := if mimeType == "" then it.mimeType else mimeType,
        parents := if parent in it.parents then it.parents else it.parents + [parent],
        content := content)
  }

  /** Update in place of the item carrying `id`. */
  function Update(st: Store, id: string, name: string, mimeType: string, parent: string, content: seq<byte>): (st': Store)
    ensures |st'.items| == |st.items|
    ensures forall i :: 0 <= i < |st.items| ==> st'.items[i].id == st.items[i].id
    ensures forall i :: 0 <= i < |st.items| && st.items[i].id != id ==> st'.items[i] == st.items[i]
    ensures forall i :: 0 <= i < |st.items| && st.items[i].id == id ==>
      st'.items[i] == Overwritten(st.items[i], name, mimeType, parent, content)
  {
    Store(seq(|st.items|, i requires 0 <= i < |st.items| =>
      if st.items[i].id == id then Overwritten(st.items[i], name, mimeType, parent, content)
      else st.items[i]))
  }

  /** The viewer link for an item. */
  function LinkFor(id: string): (link: string)
    ensures |link| == |LinkPrefix| + |id| + |LinkSuffix|
    ensures link[..|LinkPrefix|] == LinkPrefix
    ensures link[|link| - |LinkSuffix|..] == LinkSuffix
  {
    LinkPrefix + id + LinkSuffix
  }

  /** The item id read back from a link (empty for a text too short to be
      one). */
  function IdOfLink(link: string): string
  {
    if |link| < |LinkPrefix| + |LinkSuffix| then ""
    else link[|LinkPrefix|..|link| - |LinkSuffix|]
  }

  /** Links of distinct items differ: the id is recovered from the link. */
  lemma IdOfLinkFor(id: string)
    ensures IdOfLink(LinkFor(id)) == id
  {
    var link := LinkFor(id);
    assert link == LinkPrefix + id + LinkSuffix;
    assert link[|LinkPrefix|..|link| - |LinkSuffix|] == id;
  }

  /** `createDriveDirectory`: reuse the first item the lookup finds under
      the parent (whatever its type), otherwise create one folder there.
      The returned id is that of an item the same lookup now finds. */
  function CreateDriveDirectory(st: Store, parentFolderId: string, folderName: string): (r: (Store, string))
    ensures FindFileByName(st, folderName, parentFolderId).Some? ==>
      r.0 == st && r.1 == FindFileByName(st, folderName, parentFolderId).value.id
    ensures FindFileByName(st, folderName, parentFolderId).None? ==>
      && !st.HasId(r.1)
      && r.0.items == st.items + [Item(r.1, folderName, FolderMimeType, [parentFolderId], false, [])]
    ensures FindFileByName(r.0, folderName, parentFolderId).Some?
    ensures FindFileByName(r.0, folderName, parentFolderId).value.id == r.1
  {
    match FindFileByName(st, folderName, parentFolderId)
    case Some(folder) => (st, folder.id)
    case None =>
      var r := Create(st, folderName, FolderMimeType, [parentFolderId], []);
      FindAfterAppend(st, r.0.items[|st.items|], folderName, parentFolderId);
      assert st.items + [r.0.items[|st.items|]] == r.0.items;
      r
  }

  /** Calling `createDriveDirectory` twice with the same arguments creates
      at most one folder: the second call changes nothing and returns the
      same id. */
  lemma CreateDriveDirectoryIdempotent(st: Store, parentFolderId: string, folderName: string)
    ensures var (st1, id1) := CreateDriveDirectory(st, parentFolderId, folderName);
      CreateDriveDirectory(st1, parentFolderId, folderName) == (st1, id1)
    ensures |CreateDriveDirectory(st, parentFolderId, folderName).0.items| <= |st.items| + 1
  {
  }

  /** `uploadToDrive`: skip directories, then update the looked-up item in
      place or create a new one under `folderId`, and answer with the
      item's viewer link. */
  function UploadToDrive(st: Store, fs: FileSystem, filename: string, folderId: string,
                         driveFile: Option<Item>, name: string, mimeType: string): (r: Result<(Store, string), UploadError>)
    ensures filename !in fs ==> r == Failure(LstatFailed(filename))
    ensures filename in fs && fs[filename].Directory? ==> r == Success((st, ""))
    ensures r.Success? && r.value.1 != "" ==> r.value.0.HasId(IdOfLink(r.value.1))
    ensures r.Success? && r.value.1 != "" ==> r.value.1 == LinkFor(IdOfLink(r.value.1))
    // an existing item is updated in place: no item appears, ids keep their places
    ensures filename in fs && fs[filename].RegularFile? && driveFile.Some? ==>
      if !st.HasId(driveFile.value.id) then r == Failure(UpdateFailed(driveFile.value.id))
      else
        && r.Success?
        && r.value.1 == LinkFor(driveFile.value.id)
        && |r.value.0.items| == |st.items|
        && (forall i :: 0 <= i < |st.items| ==> r.value.0.items[i].id == st.items[i].id)
        && (forall i :: 0 <= i < |st.items| && st.items[i].id != driveFile.value.id ==>
              r.value.0.items[i] == st.items[i])
        && (forall i :: 0 <= i < |st.items| && st.items[i].id == driveFile.value.id ==>
              && folderId in r.value.0.items[i].parents
              && AddedParent(st.items[i].parents, r.value.0.items[i].parents, folderId)
              && r.value.0.items[i].content == fs[filename].content
              && r.value.0.items[i] == Overwritten(st.items[i], name, mimeType, folderId, fs[filename].content))
    // otherwise exactly one item is created, under `folderId` only
    ensures filename in fs && fs[filename].RegularFile? && driveFile.None? ==>
      && r.Success?
      && r.value.1 == LinkFor(IdOfLink(r.value.1))
      && !st.HasId(IdOfLink(r.value.1))
      && r.value.0.items == st.items +
           [Item(IdOfLink(r.value.1), name, mimeType, [folderId], false, fs[filename].content)]
  {
    if filename !in fs then Failure(LstatFailed(filename))
    else match fs[filename]
      case Directory => Success((st, ""))
      case RegularFile(content) =>
        match driveFile
        case Some(existing) =>
          if !st.HasId(existing.id) then Failure(UpdateFailed(existing.id))
          else
            var st' := Update(st, existing.id, name, mimeType, folderId, content);
            IdOfLinkFor(existing.id);
            assert st'.HasId(existing.id);
            Success((st', LinkFor(existing.id)))
        case None =>
          var (st', id) := Create(st, name, mimeType, [folderId], content);
          IdOfLinkFor(id);
          assert st'.items[|st.items|].id == id;
          Success((st', LinkFor(id)))
  }

  /** Every operation keeps ids unique: creates draw a fresh id, updates
      keep every id where it was. */
  lemma CreateKeepsUniqueIds(st: Store, name: string, mimeType: string, parents: seq<string>, content: seq<byte>)
    requires st.UniqueIds()
    ensures Create(st, name, mimeType, parents, content).0.UniqueIds()
  {
    var (st', id) := Create(st, name, mimeType, parents, content);
    forall i, j | 0 <= i < j < |st'.items|
      ensures st'.items[i].id != st'.items[j].id
    {
      if j == |st.items| {
        assert st'.items[i] == st.items[i];
      }
    }
  }

  lemma UploadKeepsUniqueIds(st: Store, fs: FileSystem, filename: string, folderId: string,
                             driveFile: Option<Item>, name: string, mimeType: string)
    ensures var r := UploadToDrive(st, fs, filename, folderId, driveFile, name, mimeType);
      st.UniqueIds() && r.Success? ==> r.value.0.UniqueIds()
  {
    if st.UniqueIds() && filename in fs && fs[filename].RegularFile? && driveFile.None? {
      CreateKeepsUniqueIds(st, name, mimeType, [folderId], fs[filename].content);
    }
  }

  lemma CreateDriveDirectoryKeepsUniqueIds(st: Store, parentFolderId: string, folderName: string)
    ensures st.UniqueIds() ==> CreateDriveDirectory(st, parentFolderId, folderName).0.UniqueIds()
  {
    if st.UniqueIds() && FindFileByName(st, folderName, parentFolderId).None? {
      CreateKeepsUniqueIds(st, folderName, FolderMimeType, [parentFolderId], []);
    }
  }

  /** Two items look the same to every lookup query and carry the same id. */
  predicate SameListing(a: Item, b: Item) {
    a.id == b.id && a.name == b.name && a.parents == b.parents && a.trashed == b.trashed
  }

  /** Two stores list the same ids in the same places and answer every
      lookup query alike; contents and MIME types may differ. */
  predicate SameListings(st: Store, st': Store) {
    && |st.items| == |st'.items|
    && forall i :: 0 <= i < |st.items| ==> SameListing(st.items[i], st'.items[i])
  }

  /** Stores with the same listings answer every lookup with items of the
      same id. */
  lemma LookupOfSameListings(st: Store, st': Store, name: string, parent: string)
    requires SameListings(st, st')
    ensures FindFileByName(st, name, parent).None? <==> FindFileByName(st', name, parent).None?
    ensures FindFileByName(st, name, parent).Some? ==>
      FindFileByName(st, name, parent).value.id == FindFileByName(st', name, parent).value.id
  {
    match FirstMatch(st.items, name, parent)
    case Some(i) =>
      assert IsFirstMatch(st'.items, i, name, parent) by {
        assert IsMatch(st.items[i], name, parent);
        forall j | 0 <= j < i ensures !IsMatch(st'.items[j], name, parent) {
          assert !IsMatch(st.items[j], name, parent);
        }
      }
      FirstMatchIsUnique(st'.items, name, parent, i);
    case None =>
      forall j | 0 <= j < |st'.items| ensures !IsMatch(st'.items[j], name, parent) {
        assert !IsMatch(st.items[j], name, parent);
      }
  }

  /** Updating the item a lookup found, with the name and parent of that
      same lookup, changes no lookup's answer: the item keeps its name,
      parents and trash state, and (ids being unique) no other item is
      touched. */
  lemma UpdateOfFoundKeepsListings(st: Store, name: string, mimeType: string, parent: string, content: seq<byte>)
    requires st.UniqueIds()
    requires FindFileByName(st, name, parent).Some?
    ensures SameListings(st, Update(st, FindFileByName(st, name, parent).value.id, name, mimeType, parent, content))
  {
    var found := FindFileByName(st, name, parent).value;
    var st' := Update(st, found.id, name, mimeType, parent, content);
    var k: nat :| IsFirstMatch(st.items, k, name, parent) && found == st.items[k];
    forall i | 0 <= i < |st.items|
      ensures SameListing(st.items[i], st'.items[i])
    {
      if st.items[i].id == found.id {
        assert i == k;
      }
    }
  }

  /** Every item that is new in `st'` sits directly in the root folder. */
  predicate NewItemsInRoot(st: Store, st': Store, folderId: string)
    requires |st.items| <= |st'.items|
  {
    forall i :: |st.items| <= i < |st'.items| ==> st'.items[i].parents == [folderId]
  }

  /** `st'` keeps every item of `st` in its place under the same id, with
      its parents at most gaining the root folder. */
  predicate KeepsItems(st: Store, st': Store, folderId: string)
  {
    && |st.items| <= |st'.items|
    && (forall i :: 0 <= i < |st.items| ==> st'.items[i].id == st.items[i].id)
    && (forall i :: 0 <= i < |st.items| ==> AddedParent(st.items[i].parents, st'.items[i].parents, folderId))
  }

  /** Keeping items and adding only root items compose over two steps. */
  lemma KeepsItemsCompose(st1: Store, st2: Store, st3: Store, folderId: string)
    requires KeepsItems(st1, st2, folderId) && NewItemsInRoot(st1, st2, folderId)
    requires KeepsItems(st2, st3, folderId) && NewItemsInRoot(st2, st3, folderId)
    ensures KeepsItems(st1, st3, folderId) && NewItemsInRoot(st1, st3, folderId)
  {
    forall i | |st1.items| <= i < |st3.items|
      ensures st3.items[i].parents == [folderId]
    {
      if i < |st2.items| {
        assert AddedParent(st2.items[i].parents, st3.items[i].parents, folderId);
      }
    }
  }

  /** An id of a kept store survives. */
  lemma KeepsItemsKeepIds(st: Store, st': Store, folderId: string, id: string)
    requires KeepsItems(st, st', folderId)
    ensures st.HasId(id) ==> st'.HasId(id)
  {
    if st.HasId(id) {
      var i :| 0 <= i < |st.items| && st.items[i].id == id;
      assert st'.items[i].id == id;
    }
  }

  /** An upload keeps every item in place and adds at most one item, in
      the root folder. */
  lemma UploadKeepsItems(st: Store, fs: FileSystem, filename: string, folderId: string,
                         driveFile: Option<Item>, name: string, mimeType: string)
    ensures var r := UploadToDrive(st, fs, filename, folderId, driveFile, name, mimeType);
      r.Success? ==> KeepsItems(st, r.value.0, folderId) && NewItemsInRoot(st, r.value.0, folderId)
  {
  }

  /** After an upload of a regular file that followed the existence check,
      the same check finds the uploaded item. */
  lemma UploadedIsFound(st: Store, fs: FileSystem, file: string, folderId: string,
                        existing: Option<Item>, name: string, mimeType: string)
    requires existing == FindFileByName(st, name, folderId)
    ensures var r := UploadToDrive(st, fs, file, folderId, existing, name, mimeType);
      st.UniqueIds() && file in fs && fs[file].RegularFile? ==>
        && r.Success?
        && FindFileByName(r.value.0, name, folderId).Some?
        && FindFileByName(r.value.0, name, folderId).value.id == IdOfLink(r.value.1)
  {
    if !(st.UniqueIds() && file in fs && fs[file].RegularFile?) {
      return;
    }
    var r := UploadToDrive(st, fs, file, folderId, existing, name, mimeType);
    match existing
    case Some(found) =>
      var k: nat :| IsFirstMatch(st.items, k, name, folderId) && found == st.items[k];
      assert st.HasId(found.id);
      IdOfLinkFor(found.id);
      var st' := Update(st, found.id, name, mimeType, folderId, fs[file].content);
      assert r.value.0 == st';
      UpdateOfFoundKeepsListings(st, name, mimeType, folderId, fs[file].content);
      LookupOfSameListings(st, st', name, folderId);
    case None =>
      var it := r.value.0.items[|st.items|];
      assert r.value.0.items == st.items + [it];
      FindAfterAppend(st, it, name, folderId);
  }

  /** An upload that followed the existence check leaves every lookup that
      found something finding an item with the same id. */
  lemma UploadKeepsLookups(st: Store, fs: FileSystem, file: string, folderId: string,
                           existing: Option<Item>, name: string, mimeType: string,
                           qName: string, qParent: string)
    requires existing == FindFileByName(st, name, folderId)
    requires st.UniqueIds()
    requires FindFileByName(st, qName, qParent).Some?
    ensures var r := UploadToDrive(st, fs, file, folderId, existing, name, mimeType);
      r.Success? ==>
        && FindFileByName(r.value.0, qName, qParent).Some?
        && FindFileByName(r.value.0, qName, qParent).value.id == FindFileByName(st, qName, qParent).value.id
  {
    var r := UploadToDrive(st, fs, file, folderId, existing, name, mimeType);
    if r.Success? && r.value.1 != "" {
      match existing
      case Some(found) =>
        var st' := Update(st, found.id, name, mimeType, folderId, fs[file].content);
        assert r.value.0 == st';
        UpdateOfFoundKeepsListings(st, name, mimeType, folderId, fs[file].content);
        LookupOfSameListings(st, st', qName, qParent);
      case None =>
        var it := r.value.0.items[|st.items|];
        assert r.value.0.items == st.items + [it];
        FindAfterAppend(st, it, qName, qParent);
    }
  }

  /** `createDriveDirectory` leaves every lookup that found something
      finding the same item. */
  lemma CreateDriveDirectoryKeepsLookups(st: Store, parentFolderId: string, folderName: string,
                                         qName: string, qParent: string)
    requires FindFileByName(st, qName, qParent).Some?
    ensures FindFileByName(CreateDriveDirectory(st, parentFolderId, folderName).0, qName, qParent)
         == FindFileByName(st, qName, qParent)
  {
    var st' := CreateDriveDirectory(st, parentFolderId, folderName).0;
    if st' != st {
      var it := st'.items[|st.items|];
      assert st'.items == st.items + [it];
      FindAfterAppend(st, it, qName, qParent);
    }
  }

  /** `createDriveDirectory` keeps every item as it was and adds at most
      one, directly under the given parent. */
  lemma CreateDriveDirectoryKeepsItems(st: Store, parentFolderId: string, folderName: string)
    ensures var st' := CreateDriveDirectory(st, parentFolderId, folderName).0;
      KeepsItems(st, st', parentFolderId) && NewItemsInRoot(st, st', parentFolderId)
  {
    var st' := CreateDriveDirectory(st, parentFolderId, folderName).0;
    if st' != st {
      var it := st'.items[|st.items|];
      assert st'.items == st.items + [it];
      assert forall i :: 0 <= i < |st.items| ==> st'.items[i] == st.items[i];
    }
  }
}

=== FILE: paths.dfy ===
/** Path helpers used by the per-file loop: the base name and directory of
    a matched path, and the space escape applied before mirroring.

    `Base` and `Dir` are simplified versions of Go's `filepath.Base` and
    `filepath.Dir` for clean paths (no trailing `/`, no repeated `/`, no
    `.` or `..` segments): the base is the text after the last `/`, the
    directory is the text before it, `"/"` for a path directly under the
    root, and `"."` for a path without any `/`. */
module Paths {
  import opened Wrappers

  /** Position of the last `/` in `p`, if there is one. */
  function LastSlash(p: string): (r: Option<nat>)
    ensures r.Some? ==> r.value < |p| && p[r.value] == '/'
    ensures r.Some? ==> forall j :: r.value < j < |p| ==> p[j] != '/'
    ensures r.None? <==> '/' !in p
    decreases |p|
  {
    if |p| == 0 then None
    else if p[|p| - 1] == '/' then Some(|p| - 1)
    else
      var r := LastSlash(p[..|p| - 1]);
      assert p == p[..|p| - 1] + [p[|p| - 1]];
      r
  }

  /** The file name part of a path. */
  function Base(p: string): (b: string)
    ensures '/' !in b
    ensures '/' !in p ==> b == p
    ensures |b| <= |p|
    ensures '/' in p ==> |b| < |p| && p[|p| - |b| - 1] == '/' && b == p[|p| - |b|..]
  {
    match LastSlash(p)
    case None => p
    case Some(i) => p[i + 1..]
  }

  /** The directory part of a path. */
  function Dir(p: string): (d: string)
    ensures '/' !in p ==> d == "."
    ensures '/' in p ==> d == "/" || (|d| < |p| && d == p[..|d|] && p[|d|] == '/' && '/' !in p[|d| + 1..])
  {
    match LastSlash(p)
    case None => "."
    case Some(i) => if i == 0 then "/" else p[..i]
  }

  /** A path with a `/` below the root is its directory, a `/` and its base
      name: `Dir` and `Base` split it without losing anything. */
  lemma DirBaseSplit(p: string)
    requires '/' in p && p[0] != '/'
    ensures p == Dir(p) + "/" + Base(p)
  {
    var i := LastSlash(p).value;
    assert p == p[..i] + "/" + p[i + 1..];
  }

  /** Number of spaces in `s`. */
  function CountSpaces(s: string): nat
  {
    if |s| == 0 then 0
    else (if s[0] == ' ' then 1 else 0) + CountSpaces(s[1..])
  }

  /** Replaces every space by a backslash followed by a space, as
      `strings.Replace(file, " ", "\\ ", -1)` does. */
  function EscapeSpaces(s: string): (r: string)
    ensures |r| == |s| + CountSpaces(s)
    ensures ' ' !in s ==> r == s
    ensures forall i :: 0 <= i < |r| && r[i] == ' ' ==> 0 < i && r[i - 1] == '\\'
    ensures forall c :: c != ' ' && c != '\\' ==> (c in r <==> c in s)
  {
    if |s| == 0 then ""
    else
      var head: string := if s[0] == ' ' then "\\ " else [s[0]];
      var tail := EscapeSpaces(s[1..]);
      assert forall c :: c in s <==> c == s[0] || c in s[1..];
      assert |tail| > 0 ==> tail[0] != ' ';
      head + tail
  }

  /** Reading an escaped name back: a backslash followed by a space is one
      space, every other character stands for itself. */
  function UnescapeSpaces(r: string): string
    decreases |r|
  {
    if |r| == 0 then ""
    else if |r| >= 2 && r[0] == '\\' && r[1] == ' ' then " " + UnescapeSpaces(r[2..])
    else [r[0]] + UnescapeSpaces(r[1..])
  }

  /** Escaping loses nothing: the original path can be read back from the
      escaped one, so distinct paths never share an escaped form. */
  lemma {:induction false} UnescapeEscape(s: string)
    ensures UnescapeSpaces(EscapeSpaces(s)) == s
    decreases |s|
  {
    if |s| > 0 {
      var e := EscapeSpaces(s);
      var tail := EscapeSpaces(s[1..]);
      UnescapeEscape(s[1..]);
      if s[0] == ' ' {
        assert e == "\\ " + tail;
        assert e[2..] == tail;
      } else {
        assert e == [s[0]] + tail;
        assert e[1..] == tail;
        assert |e| >= 2 ==> e[1] == tail[0] && tail[0] != ' ';
      }
      assert s == [s[0]] + s[1..];
    }
  }

  /** Escaping distributes over concatenation. */
  lemma {:induction false} EscapeAppend(a: string, b: string)
    ensures EscapeSpaces(a + b) == EscapeSpaces(a) + EscapeSpaces(b)
    decreases |a|
  {
    if |a| > 0 {
      assert (a + b)[0] == a[0];
      assert (a + b)[1..] == a[1..] + b;
      EscapeAppend(a[1..], b);
    } else {
      assert a + b == b;
    }
  }

  /** The last `/` of `x + "/" + y` is the one between them when `y` has none. */
  lemma {:induction false} LastSlashOfJoin(x: string, y: string)
    requires '/' !in y
    ensures LastSlash(x + "/" + y) == Some(|x|)
    decreases |y|
  {
    var p := x + "/" + y;
    if |y| > 0 {
      var y' := y[..|y| - 1];
      assert y[|y| - 1] in y;
      assert p[|p| - 1] == y[|y| - 1];
      assert p[..|p| - 1] == x + "/" + y';
      assert '/' !in y' by {
        forall c | c in y' ensures c in y {
          var j :| 0 <= j < |y'| && y'[j] == c;
          assert y[j] == c;
        }
      }
      LastSlashOfJoin(x, y');
    } else {
      assert p[|p| - 1] == '/';
    }
  }

  /** Escaping keeps a `/` between two parts where it was. */
  lemma EscapeJoin(a: string, b: string)
    ensures EscapeSpaces(a + "/" + b) == EscapeSpaces(a) + "/" + EscapeSpaces(b)
  {
    EscapeAppend(a + "/", b);
    EscapeAppend(a, "/");
    assert EscapeSpaces("/") == "/";
  }

  /** `Dir` of a path split at its last `/`. */
  lemma DirOfJoin(a: string, b: string)
    requires '/' !in b
    ensures Dir(a + "/" + b) == if a == "" then "/" else a
  {
    LastSlashOfJoin(a, b);
    assert (a + "/" + b)[..|a|] == a;
  }

  /** `dir/base` splits back into `dir` and `base`. */
  lemma JoinParts(dir: string, base: string)
    requires dir != "" && '/' !in base
    ensures Dir(dir + "/" + base) == dir
    ensures Base(dir + "/" + base) == base
  {
    DirOfJoin(dir, base);
    LastSlashOfJoin(dir, base);
    assert (dir + "/" + base)[|dir| + 1..] == base;
  }

  /** Escaping a path and then taking its directory gives the escaped
      directory of the raw path: the folder name the mirror step uses is
      the raw directory with its spaces escaped. */
  lemma DirOfEscaped(p: string)
    ensures Dir(EscapeSpaces(p)) == EscapeSpaces(Dir(p))
  {
    assert EscapeSpaces(".") == "." && EscapeSpaces("/") == "/";
    match LastSlash(p)
    case None =>
      assert '/' !in EscapeSpaces(p);
    case Some(i) =>
      var a, b := p[..i], p[i + 1..];
      assert p == a + "/" + b;
      assert '/' !in b by {
        forall j | 0 <= j < |b| ensures b[j] != '/' {
          assert b[j] == p[i + 1 + j];
        }
      }
      var ea, eb := EscapeSpaces(a), EscapeSpaces(b);
      EscapeJoin(a, b);
      assert '/' !in eb;
      DirOfJoin(a, b);
      DirOfJoin(ea, eb);
      assert ea == "" <==> a == "";
  }

  /** Mirror gating on the escaped path is the same decision as gating on
      the raw path: escaping never turns a directory into `"."` or back. */
  lemma EscapedDirIsDotIff(p: string)
    ensures Dir(EscapeSpaces(p)) == "." <==> Dir(p) == "."
  {
    DirOfEscaped(p);
    var d := Dir(p);
    if EscapeSpaces(d) == "." {
      UnescapeEscape(d);
      assert UnescapeSpaces(".") == ".";
    }
  }
}

=== FILE: wrappers.dfy ===
/** Wrappers shared by the other modules: `Option` for lookups that may
    find nothing and `Result` for steps that may abort. */
module Wrappers {

  datatype Option<+T> = None | Some(value: T)

  datatype Result<+R, +E> = Success(value: R) | Failure(error: E)
}
